=== FILE: README.md ===
# ZenTea House backend: membership, pricing and authentication logic in Dafny

This project models the business logic of a tea-house storefront backend. The backend is an
Express/Mongoose CRUD service. Three pieces of it hold logic of their own:

- **Membership tier engine** (`models/user.js`): a member's tier is derived from their points
  (bronze, silver from 500, gold from 2000, platinum from 5000). `addPoints` changes the points and
  re-derives the tier in place. The discount table is 0/5/10/15 %. The file also has the
  `fullAddress` virtual, the `toJSON` projection that drops the password, and the pre-save hook
  that hashes the password only when it was modified.
- **Pricing calculator and rating aggregate** (`models/Beverage.js`): `calculatePrice` takes the
  price for the size, falling back to the medium price when the size is unknown or its price is
  zero. It then adds, customization by customization, the price of the first milk option with the
  same name. `updateAverageRating` recomputes the review count and the mean rating rounded half up
  to one decimal. The file also has the `isLowStock` and `isCurrentlySeasonalActive` virtuals.
- **Authentication decisions** (`routes/auth.js`): these are register-input validation, the
  409 conflict message, the defaults of a new member, login (one failure body for an unknown
  e-mail and a wrong password), the profile's `nextTierPoints` statistic and refresh-token
  acceptance.

Modules: `Membership` (membership.dfy) is the tier and discount tables. `Users` (user.dfy) holds the
`User` class with the fields the handlers change in place. `Beverages` (beverage.dfy) holds the
price calculator, the rating functions and the `Beverage` class. `Auth` (auth.dfy) holds the
route decisions. `Wrappers` (wrappers.dfy) holds `Option`, which stands for a JavaScript field that
may be `undefined`. `Sequences` (sequences.dfy) holds the first-match search that every lookup
(`find`, `findOne`, `findById`) is an instance of.

Representation choices:

- Money is an integer in minor units.
- `averageRating` is kept in tenths of a star. `RoundTenths` is `Math.round(10 * sum / count)`
  on exact integers.
- "Now" is an integer parameter.
- Password hashing and comparison (bcrypt) are function parameters, and so is the salt.
- Token verification (JWT) is a function parameter from token to user id. A token is represented
  by the claims it carries: an access token carries user id, e-mail and username, and a refresh
  token carries the user id.
- The e-mail format check of the validator is an abstract predicate parameter.
- The store is a sequence of `User` objects. A review set is a sequence of `Review` values.
- Fields that no modelled operation writes are `const`.

Behaviour kept exactly as the code has it:

- A size whose price is 0 also falls back to the medium price.
- Only customizations of type `milk` are priced. Sweetener and extra options never are.
- `addPoints` accepts negative amounts. Nothing keeps the points non-negative.
- An empty `preferredTeas` list given at registration stays empty. Only an absent list becomes
  `['green']`.
- A missing city, state or zip code prints as `undefined` in `fullAddress`.
- The registration lookup matches the e-mail lowercased, because the schema lowercases it in query
  filters. The conflict message, however, compares the stored e-mail with the request's e-mail
  as typed. So a taken e-mail typed in another case is reported as a taken username
  (`Auth.MixedCaseEmailConflictNamesUsername`).
- The validator measures the username and the full name before the schema trims them. A
  padded username such as `"  ab  "` or a full name of spaces passes validation, then fails the
  schema at save with the 500 reply (`Auth.SaveFailsOnlyWhenTrimmed`).
- The profile computes `nextTierPoints` from the stored tier. The statistic is guaranteed positive
  for a non-platinum member whose stored tier agrees with the points. A stored tier below the
  points' tier can make it zero or negative.

## Model

| member | source | states |
|---|---|---|
| Membership.TierFor | models/user.js:133-143 | the tier is the highest one whose threshold (500/2000/5000) the points reach, and the points lie below the next tier's threshold |
| Membership.TierBands | models/user.js:133-143 | platinum iff p >= 5000, gold iff 2000 <= p < 5000, silver iff 500 <= p < 2000, bronze iff p < 500 |
| Membership.TierMonotone | models/user.js:133-143 | more points never give a lower tier |
| Membership.DiscountFor | models/user.js:152-160 | the discount is 5 % per tier above bronze, 0 for a name that is none of the four tier names, always one of 0/5/10/15 |
| Membership.DiscountMonotone | models/user.js:152-160 | a higher tier never has a smaller discount |
| Membership.DiscountAtBoundaries | models/user.js:152-160 | the discount of the tier at the balances 0, 499, 500, 1999, 2000, 4999, 5000 and 10000 is 0, 0, 5, 5, 10, 10, 15, 15 |
| Membership.DefaultsConsistent | models/user.js:49-57 | the default tier (bronze) is the tier of the default points (100) |
| Membership.NextTierPoints | routes/auth.js:232-235 | 0 for platinum; otherwise the balance plus the result is the next tier's threshold |
| Membership.NextTierPointsReachesNextTier | routes/auth.js:232-235 | for a consistent non-platinum tier the statistic is positive, adding it reaches the next tier, and one point less stays in the current tier |
| Users.FullAddress | models/user.js:163-166 | empty iff the street is absent or empty; otherwise "street, city, state zipCode": the street, ", ", the city, ", ", the state, " " and the zip code at their offsets, with `undefined` for a missing part |
| Users.FullAddressExamples | models/user.js:163-166 | "street, city, state zip" for a full address, `undefined` printed for a missing part, empty for an empty street |
| Users.Lower | models/user.js:19-25 | the stored e-mail has the input's length, each letter lowercased, and no upper-case ASCII letter left |
| Users.LowerIdempotent | models/user.js:19-25 | lowercasing an already lowercased e-mail changes nothing |
| Users.Trim | models/user.js:13-18 | the stored full name is a contiguous part of the input with only white space cut from either end, and neither starts nor ends with white space |
| Users.TrimExamples | models/user.js:13-18 | "  Asha Rao  " is stored as "Asha Rao", and a name of white space only becomes empty |
| Users.User.constructor | models/user.js:4-107 | a new member has the trimmed username and full name, the lowercased e-mail, bronze tier, active status, unverified e-mail, no orders, member-since and last-login now, and a modified password |
| Users.User.UpdateMembershipTier | models/user.js:133-143 | the stored tier becomes the tier of the stored points |
| Users.User.AddPoints | models/user.js:146-149 | the points grow by exactly n (any integer), the tier becomes the tier of the new points, nothing else changes, and adding n >= 0 never lowers the tier |
| Users.User.GetDiscount | models/user.js:152-160 | the member's discount is 5 % per tier above bronze, at most 15 |
| Users.User.Save | models/user.js:115-125 | the password is replaced by hash(password, salt) iff it was modified; afterwards it is unmodified, so a second save keeps it |
| Users.User.ToJSON | models/user.js:169-173 | the JSON form has no password and every other field of the document unchanged |
| Beverages.SizeEntry | models/Beverage.js:182 | a size entry exists exactly for small, medium and large |
| Beverages.BasePrice | models/Beverage.js:182 | the size's price when it exists and is non-zero, else the medium price; always one of the three prices |
| Beverages.PricingExamples | models/Beverage.js:182 | with prices 90/110/130, small is 90, medium is 110, large is 130, an unknown size is 110, and a zero small price falls back to 110 |
| Sequences.FirstIndex | models/Beverage.js:187 | the index of the first element satisfying the test, with no earlier element satisfying it; none means no element does |
| Beverages.FindOption | models/Beverage.js:187 | the result is the index of the first option with an equal name; none when no option has it |
| Beverages.Surcharge | models/Beverage.js:185-191 | a non-milk customization adds 0; a milk one adds the first matching option's price, or 0 when none matches |
| Beverages.SurchargeTotalRemove | models/Beverage.js:185-191 | removing one customization removes exactly its surcharge from the total |
| Beverages.SurchargeTotalPermutation | models/Beverage.js:181-194 | reordering the customizations does not change the price |
| Beverages.NonMilkIgnored | models/Beverage.js:185-191 | dropping a customization whose type is not milk does not change the price |
| Beverages.NoMilkNoSurcharge | models/Beverage.js:185-191 | without milk customizations nothing is added to the base price |
| Beverages.SurchargeTotalNonNegative | models/Beverage.js:181-194 | with non-negative option prices the total surcharge is non-negative |
| Beverages.Beverage.CalculatePrice | models/Beverage.js:181-194 | the loop returns the base price plus the sum of the matched milk surcharges, which is at least the base price when option prices are non-negative |
| Beverages.RatingsFor | models/Beverage.js:199-208 | one rating per review of this beverage, each the rating some such review carries; each in 1..5 when all ratings are |
| Beverages.RatingsForExact | models/Beverage.js:199-208 | exactly the ratings of the reviews of this beverage: each value occurs as often as reviews of this beverage carry it |
| Beverages.SumBounds | models/review.js:13-18 | ratings of 1 to 5 stars sum to between 1 and 5 times their count |
| Beverages.RoundTenths | models/Beverage.js:211 | the result is the number of tenths nearest to the mean, halves rounded up |
| Beverages.AverageInRange | models/Beverage.js:210-211 | with every rating in 1..5 the rounded mean lies in 1.0..5.0, inside the schema's 0..5 |
| Beverages.AverageExample | models/Beverage.js:210-212 | ratings [5,4,3] give 4.0, [5] gives 5.0, [4,5] gives 4.5 |
| Beverages.Beverage.constructor | models/Beverage.js:88-97 | a new beverage has a zero average and zero reviews |
| Beverages.Beverage.IsLowStock | models/Beverage.js:167-169 | low stock iff the stock is at most the threshold |
| Beverages.Beverage.IsCurrentlySeasonalActive | models/Beverage.js:172-178 | false when not seasonal; otherwise true iff now lies within the start and end bounds that are present, both inclusive |
| Beverages.Beverage.UpdateAverageRating | models/Beverage.js:197-216 | the count is exactly the number of reviews whose beverage is this one; the average is 0 with no reviews, else their rounded mean, and lies in 1.0..5.0 when ratings are in 1..5 |
| Auth.FirstViolation | routes/auth.js:8-27 | the result is the first key whose rule fails, with every earlier key's rule holding; none means every rule holds |
| Auth.ValidateRegister | routes/auth.js:8-27 | a body is accepted iff every schema rule holds and no unknown key is present; a rejection names the first failing key in schema order, or, when every key's rule holds, the first unknown key |
| Auth.RegisterAcceptedIff | routes/auth.js:8-27 | acceptance iff username 3..20, full name 3..50, a valid e-mail, password >= 6, phone of 10..15 ASCII digits, a well-formed address, every tea among the 8 and every diet among the 5 |
| Auth.FindByEmailOrUsername | routes/auth.js:65-67 | the result is the first stored member with the lowercased e-mail or the trimmed username; none means no member has either |
| Auth.ConflictMessage | routes/auth.js:69-76 | the message names the e-mail iff the existing member's e-mail equals the request's, the username otherwise |
| Auth.MixedCaseEmailConflictNamesUsername | routes/auth.js:65-76 | a taken e-mail typed in another case is found, but is reported as a taken username |
| Auth.StoredAddress | routes/auth.js:85 | no address gives the empty address with country India; a given one keeps its parts, its country defaulting to India |
| Auth.NewMemberDefaults | routes/auth.js:79-90 | teas default to ['green'] only when absent, diets to [], the address to the empty one; points are 100 |
| Auth.NewMemberDefaultsValid | routes/auth.js:85-88 | the defaults of an accepted body stay within the tea and diet enumerations, and 100 points are bronze with 0 % discount |
| Auth.SaveFailsOnlyWhenTrimmed | routes/auth.js:9-10 | for an accepted body, the schema's rules at save fail exactly when trimming leaves a username shorter than 3 or an empty full name |
| Auth.BlankFullNameFailsSave | models/user.js:13-18 | a full name of three spaces passes the validator's length rule yet fails the schema at save |
| Auth.Register | routes/auth.js:52-113 | invalid gives 400 naming the key; a found member gives 409 with the conflict message; otherwise, when the trimmed username is shorter than 3 or the trimmed full name is empty, the 500 "Registration failed" reply and no member; otherwise a fresh member with the trimmed username and full name, the defaults, a hashed password, a consistent tier and both tokens |
| Auth.ValidateLogin | routes/auth.js:29-32 | a login body is accepted iff it has a valid e-mail, a non-empty password and no unknown key; the e-mail is reported first |
| Auth.FindActiveByEmail | routes/auth.js:148-151 | the result is the first active member with the lowercased e-mail; none means there is none |
| Auth.Authenticate | routes/auth.js:137-167 | 400 iff the body is invalid; otherwise the one 401 body iff there is no active member with the e-mail or the password does not match, and acceptance of that member iff it exists and the password matches |
| Auth.UnknownUserAndWrongPasswordIndistinguishable | routes/auth.js:153-167 | a wrong password gives exactly the reply of an unknown e-mail |
| Auth.Login | routes/auth.js:135-194 | a rejected login changes nothing; an accepted one sets lastLogin to now, reports the tier's discount and both tokens, and leaves passwords, points and tiers unchanged |
| Auth.FindById | routes/auth.js:216-224 | the result is the index of the first stored member with that id; none means there is none |
| Auth.Profile | routes/auth.js:205-237 | no user id gives 401, an unknown one gives 404; a found member is always served: its JSON without password, its order count, points and tier, and nextTierPoints equal to 0 for platinum and the next threshold minus the points otherwise (positive for a consistent lower tier) |
| Auth.Refresh | routes/auth.js:248-281 | a missing token gives 401 "required"; a new access token (and no new refresh token) iff the token verifies and names an active member; every other case gives 401 "invalid" |

## Left out

- bcrypt salting, hashing and comparing (models/user.js:119-120, 128-130): a foreign library.
  Hash and compare are function parameters, and the salt is a parameter. A hashing failure that
  aborts the save is not modelled.
- JWT signing and verification (routes/auth.js:35-49, 259): a foreign library. Secrets and
  expiry times are not modelled. A payload without `userId` counts the same as a failed
  verification, and both give the same 401.
- The e-mail format check of the validator: an abstract predicate. The wording of the
  validator's messages is reduced to the name of the top-level key that failed. Values of the
  wrong JSON type (a number where a string is expected) are not modelled: every field is a string.
- Mongoose persistence: `save` as a store write, `findOne`/`findById` over a real collection,
  `populate`, indexes, the `Review.aggregate` pipeline (here a sequence of reviews passed in),
  and `trim` on the e-mail and the phone: the validator's e-mail rule and digit pattern already
  reject surrounding white space (the username and the full name are trimmed).
- The duplicate-key handler of register (routes/auth.js:119-125): it can only fire when two
  registrations race, since the lookup before it already matches both keys. Concurrency is out of
  scope, and so are the 500 catch-all replies of every handler other than the failed save of
  register, which is modelled.
- The read-then-write race of the rating recomputation, and all concurrency.
- Floating point: `Math.round(avg * 10) / 10` and prices as JavaScript numbers are integers here
  (tenths, minor units). Non-integer ratings are not modelled.
- Lowercasing covers ASCII letters only. JavaScript's `toLowerCase` covers all of Unicode.
- Auth.ValidateRegister: string lengths are counted in Unicode characters, while the validator
  counts UTF-16 code units, so a string with characters outside the Basic Multilingual Plane (an
  emoji, say) is shorter here than there. The same holds for Auth.RegisterAcceptedIff.
- Membership.DiscountFor: a tier name that is an inherited object property (`toString`, say)
  yields a function rather than 0 in the source. Tier names are plain strings here, and every
  name outside the table gives 0.
- `new Date()`: "now" is a parameter, and dates are integers.
- `calculatePrice`'s guard that `milkOptions` exists: the schema always supplies an array, so
  it is taken as present. `pricing[size]` for keys that are neither sizes nor absent (inherited
  object properties) is not modelled.
- Users.User.ToJSON: the document omits `avatar`, `favoriteBeverages`, `reviews`, `createdAt`,
  `updatedAt` and `__v`. No modelled operation reads or changes them.
- Logout (routes/auth.js:284-288): a constant message with no logic.
- routes/beverages.js, routes/users.js, routes/order.js, routes/categories.js, app.js,
  config/database.js and seed.js: plumbing with no logic of its own. They are not part of this model.

=== FILE: auth.dfy ===
/**
 * The decisions of the authentication routes, lifted out of the handlers:
 * register-input validation, the conflict message, the defaults of a new
 * member, login (with its single failure body for unknown user and wrong
 * password), the profile statistics and refresh-token acceptance.
 * Signing is abstracted: a token is represented by the claims it carries.
 * Password comparison, token verification and the e-mail format check are
 * parameters.
 */
module Auth {
  import opened Wrappers
  import opened Sequences
  import opened Membership
  import opened Users

  /** The tea types a member may prefer. */
  const TeaNames: seq<string> := ["green", "black", "white", "oolong", "herbal", "chai", "matcha", "bubble"]

  /** The dietary preference tags. */
  const DietNames: seq<string> := ["vegan", "lactose-free", "sugar-free", "organic", "caffeine-free"]

  /** The claims of an access token. */
  datatype AccessClaims = AccessClaims(userId: Id, email: string, username: string)

  /** An access token and a refresh token; the refresh token carries only the user id. */
  datatype TokenPair = TokenPair(access: AccessClaims, refreshUserId: Id)

  /** An error body `{error, message?, details?}` with its HTTP status. */
  datatype ErrorResponse = ErrorResponse(status: nat, error: string, message: Option<string>, details: Option<string>)

  /** The member summary returned by register (no diets, no discount) and by login. */
  datatype MemberView = MemberView(id: Id, username: string, fullName: string, email: string,
                                   phone: string, membershipPoints: int, membershipTier: string,
                                   preferredTeas: seq<string>, dietaryPreferences: Option<seq<string>>,
                                   discount: Option<nat>)

  // ---------------------------------------------------------------- register

  datatype AddressInput = AddressInput(street: Option<string>, city: Option<string>, state: Option<string>,
                                       zipCode: Option<string>, country: Option<string>,
                                       unknownKeys: seq<string>)

  /** A register request body; `None` is a key that is absent. */
  datatype RegisterRequest = RegisterRequest(
    username: Option<string>, fullName: Option<string>, email: Option<string>,
    password: Option<string>, phone: Option<string>, address: Option<AddressInput>,
    preferredTeas: Option<seq<string>>, dietaryPreferences: Option<seq<string>>,
    unknownKeys: seq<string>)

  /** The schema's keys, in the order they are validated. */
  const RegisterFields: seq<string> :=
    ["username", "fullName", "email", "password", "phone", "address", "preferredTeas", "dietaryPreferences"]

  /** A present string whose length lies in `lo..hi`. */
  predicate LengthIn(o: Option<string>, lo: nat, hi: nat)
  {
    o.Some? && lo <= |o.value| <= hi
  }

  predicate IsDigit(c: char)
  {
    '0' <= c <= '9'
  }

  /** The phone pattern: 10 to 15 ASCII digits and nothing else. */
  predicate PhoneOk(o: Option<string>)
  {
    o.Some? && 10 <= |o.value| <= 15 && forall i :: 0 <= i < |o.value| ==> IsDigit(o.value[i])
  }

  /** The address object: optional; its parts may be empty except the country; no other keys. */
  predicate AddressOk(o: Option<AddressInput>)
  {
    o.None? || (o.value.country != Some("") && o.value.unknownKeys == [])
  }

  /** An optional array whose every item is one of `allowed`. */
  predicate ItemsIn(o: Option<seq<string>>, allowed: seq<string>)
  {
    o.None? || forall i :: 0 <= i < |o.value| ==> o.value[i] in allowed
  }

  /** The rule the register schema states for one key. */
  predicate FieldOk(req: RegisterRequest, isEmail: string -> bool, field: string)
  {
    if field == "username" then LengthIn(req.username, 3, 20)
    else if field == "fullName" then LengthIn(req.fullName, 3, 50)
    else if field == "email" then req.email.Some? && req.email.value != "" && isEmail(req.email.value)
    else if field == "password" then req.password.Some? && |req.password.value| >= 6
    else if field == "phone" then PhoneOk(req.phone)
    else if field == "address" then AddressOk(req.address)
    else if field == "preferredTeas" then ItemsIn(req.preferredTeas, TeaNames)
    else if field == "dietaryPreferences" then ItemsIn(req.dietaryPreferences, DietNames)
    else false
  }

  /** The first of `fields` whose rule fails, if any. */
  function FirstViolation(req: RegisterRequest, isEmail: string -> bool, fields: seq<string>): (r: Option<nat>)
    ensures r.Some? ==> r.value < |fields| && !FieldOk(req, isEmail, fields[r.value])
    ensures r.Some? ==> forall j :: 0 <= j < r.value ==> FieldOk(req, isEmail, fields[j])
    ensures r.None? ==> forall j :: 0 <= j < |fields| ==> FieldOk(req, isEmail, fields[j])
  {
    if |fields| == 0 then None
    else if !FieldOk(req, isEmail, fields[0]) then Some(0)
    else
      match FirstViolation(req, isEmail, fields[1..])
      case Some(i) => Some(i + 1)
      case None => None
  }

  /**
   * `registerSchema.validate`: `None` when the body is accepted, otherwise
   * the key reported, which is the first failing schema key, or else the
   * first key the schema does not know.
   */
  function ValidateRegister(req: RegisterRequest, isEmail: string -> bool): (r: Option<string>)
    ensures r.Some? ==>
              || (r.value in RegisterFields && !FieldOk(req, isEmail, r.value))
              || ((forall f :: f in RegisterFields ==> FieldOk(req, isEmail, f)) && |req.unknownKeys| > 0 && r.value == req.unknownKeys[0])
    ensures r.None? <==> req.unknownKeys == [] && forall f :: f in RegisterFields ==> FieldOk(req, isEmail, f)
    ensures FirstViolation(req, isEmail, RegisterFields).Some? ==>
              r == Some(RegisterFields[FirstViolation(req, isEmail, RegisterFields).value])
    ensures FirstViolation(req, isEmail, RegisterFields).None? && |req.unknownKeys| > 0 ==>
              r == Some(req.unknownKeys[0])
    ensures r.None? ==> req.username.Some? && req.fullName.Some? && req.email.Some?
                        && req.password.Some? && req.phone.Some?
  {
    match FirstViolation(req, isEmail, RegisterFields)
    case Some(i) => Some(RegisterFields[i])
    case None =>
      assert FieldOk(req, isEmail, RegisterFields[0]) && FieldOk(req, isEmail, RegisterFields[1]);
      assert FieldOk(req, isEmail, RegisterFields[2]) && FieldOk(req, isEmail, RegisterFields[3]);
      assert FieldOk(req, isEmail, RegisterFields[4]);
      if |req.unknownKeys| > 0 then Some(req.unknownKeys[0]) else None
  }

  /** A register body is accepted exactly when every field rule of the schema holds. */
  lemma RegisterAcceptedIff(req: RegisterRequest, isEmail: string -> bool)
    ensures ValidateRegister(req, isEmail).None? <==>
      && req.username.Some? && 3 <= |req.username.value| <= 20
      && req.fullName.Some? && 3 <= |req.fullName.value| <= 50
      && req.email.Some? && req.email.value != "" && isEmail(req.email.value)
      && req.password.Some? && |req.password.value| >= 6
      && req.phone.Some? && 10 <= |req.phone.value| <= 15
      && (forall i :: 0 <= i < |req.phone.value| ==> '0' <= req.phone.value[i] <= '9')
      && (req.address.None? || (req.address.value.country != Some("") && req.address.value.unknownKeys == []))
      && (req.preferredTeas.None? || forall i :: 0 <= i < |req.preferredTeas.value| ==> req.preferredTeas.value[i] in TeaNames)
      && (req.dietaryPreferences.None? ||
          forall i :: 0 <= i < |req.dietaryPreferences.value| ==> req.dietaryPreferences.value[i] in DietNames)
      && req.unknownKeys == []
  {
    if ValidateRegister(req, isEmail).None? {
      assert FieldOk(req, isEmail, RegisterFields[0]);
      assert FieldOk(req, isEmail, RegisterFields[1]);
      assert FieldOk(req, isEmail, RegisterFields[2]);
      assert FieldOk(req, isEmail, RegisterFields[3]);
      assert FieldOk(req, isEmail, RegisterFields[4]);
      assert FieldOk(req, isEmail, RegisterFields[5]);
      assert FieldOk(req, isEmail, RegisterFields[6]);
      assert FieldOk(req, isEmail, RegisterFields[7]);
    }
  }

  const EmailTakenMessage := "A tea house member with this email already exists"
  const UsernameTakenMessage := "This username is already taken"

  /**
   * `findOne({$or: [{email}, {username}]})`: the first stored member with
   * either; the schema lowercases the e-mail and trims the username in the filter.
   */
  function FindByEmailOrUsername(db: seq<User>, email: string, username: string): (r: Option<nat>)
    ensures r.Some? ==> r.value < |db| && (db[r.value].email == Lower(email) || db[r.value].username == Trim(username))
    ensures r.Some? ==> forall j :: 0 <= j < r.value ==> db[j].email != Lower(email) && db[j].username != Trim(username)
    ensures r.None? ==> forall j :: 0 <= j < |db| ==> db[j].email != Lower(email) && db[j].username != Trim(username)
  {
    FirstIndex(db, (u: User) => u.email == Lower(email) || u.username == Trim(username))
  }

  /** The 409 message: it names the e-mail when the stored one equals the request's, the username otherwise. */
  function ConflictMessage(existing: User, email: string): (m: string)
    ensures m == EmailTakenMessage <==> existing.email == email
    ensures m == UsernameTakenMessage <==> existing.email != email
  {
    if existing.email == email then EmailTakenMessage else UsernameTakenMessage
  }

  /**
   * The comparison is with the request's e-mail as typed, while the stored
   * one is lowercased: a taken e-mail typed in another case is reported as a
   * taken username.
   */
  lemma MixedCaseEmailConflictNamesUsername(u: User, email: string)
    requires u.email == Lower(email) && email != Lower(email)
    ensures FindByEmailOrUsername([u], email, u.username + "x") == Some(0)
    ensures ConflictMessage(u, email) == UsernameTakenMessage
  {
  }

  /** What a new member is given beyond the fields of the request. */
  datatype NewMemberFields = NewMemberFields(address: Address, preferredTeas: seq<string>,
                                             dietaryPreferences: seq<string>, membershipPoints: int)

  /** The stored address for the request's address object, the country defaulting to "India". */
  function StoredAddress(a: Option<AddressInput>): (r: Address)
    ensures a.None? ==> r == EmptyAddress
    ensures a.Some? ==> r.street == a.value.street && r.city == a.value.city && r.state == a.value.state
    ensures a.Some? ==> r.zipCode == a.value.zipCode && r.country == a.value.country.GetOr("India")
  {
    match a
    case None => EmptyAddress
    case Some(x) => Address(x.street, x.city, x.state, x.zipCode, x.country.GetOr("India"))
  }

  /**
   * The defaults of a new member: green tea when no preference is given
   * (an empty list given stays empty), no diets, an empty address and 100 points.
   */
  function NewMemberDefaults(req: RegisterRequest): (m: NewMemberFields)
    ensures m.preferredTeas == (if req.preferredTeas.None? then ["green"] else req.preferredTeas.value)
    ensures m.dietaryPreferences == (if req.dietaryPreferences.None? then [] else req.dietaryPreferences.value)
    ensures m.address == StoredAddress(req.address)
    ensures m.membershipPoints == 100
  {
    NewMemberFields(StoredAddress(req.address), req.preferredTeas.GetOr(["green"]),
                    req.dietaryPreferences.GetOr([]), 100)
  }

  /**
   * The defaults of an accepted request stay inside the schema's
   * enumerations, and the stored default tier is the tier of the points.
   */
  lemma NewMemberDefaultsValid(req: RegisterRequest, isEmail: string -> bool)
    requires ValidateRegister(req, isEmail).None?
    ensures forall i :: 0 <= i < |NewMemberDefaults(req).preferredTeas| ==> NewMemberDefaults(req).preferredTeas[i] in TeaNames
    ensures forall i :: 0 <= i < |NewMemberDefaults(req).dietaryPreferences| ==>
              NewMemberDefaults(req).dietaryPreferences[i] in DietNames
    ensures TierFor(NewMemberDefaults(req).membershipPoints) == Bronze
    ensures DiscountFor(TierName(TierFor(NewMemberDefaults(req).membershipPoints))) == 0
  {
    assert FieldOk(req, isEmail, RegisterFields[6]);
    assert FieldOk(req, isEmail, RegisterFields[7]);
  }

  /** The catch-all reply of the register handler, given when `save` fails. */
  const RegistrationFailed :=
    ErrorResponse(500, "Registration failed", Some("Unable to create your tea house membership"), None)

  /**
   * The validator measures the username and the full name before the schema
   * trims them, so an accepted body fails `save` exactly when trimming leaves
   * a username shorter than 3 characters or an empty full name.
   */
  lemma {:induction false} SaveFailsOnlyWhenTrimmed(req: RegisterRequest, isEmail: string -> bool)
    requires ValidateRegister(req, isEmail).None?
    ensures SchemaValid(Trim(req.username.value), Trim(req.fullName.value), req.password.value)
            <==> 3 <= |Trim(req.username.value)| && Trim(req.fullName.value) != ""
  {
    RegisterAcceptedIff(req, isEmail);
  }

  /** A full name of spaces passes the validator's length rule but fails `save`. */
  lemma BlankFullNameFailsSave()
    ensures 3 <= |"   "| <= 50
    ensures !SchemaValid(Trim("asha"), Trim("   "), "secret")
  {
  }

  datatype RegisterOutcome = RegisterFailed(err: ErrorResponse) | Registered(member: MemberView, tokens: TokenPair)

  /**
   * The register handler: validate, look for a member with the e-mail or the
   * username, create the member with the defaults, save it (the schema's
   * rules are checked on the trimmed values, then the password is hashed)
   * and return the summary with both tokens.
   */
  method Register(db: seq<User>, req: RegisterRequest, isEmail: string -> bool, newId: Id, now: int,
                  salt: string, hash: (string, string) -> string)
    returns (out: RegisterOutcome, created: User?)
    ensures ValidateRegister(req, isEmail).Some? ==>
              out == RegisterFailed(ErrorResponse(400, "Validation error", None, ValidateRegister(req, isEmail)))
              && created == null
    ensures ValidateRegister(req, isEmail).None? ==>
              var found := FindByEmailOrUsername(db, req.email.value, req.username.value);
              && (found.Some? ==>
                    out == RegisterFailed(ErrorResponse(409, "Account already exists",
                                                        Some(ConflictMessage(db[found.value], req.email.value)), None))
                    && created == null)
              && (found.None? && !SchemaValid(Trim(req.username.value), Trim(req.fullName.value), req.password.value) ==>
                    out == RegisterFailed(RegistrationFailed) && created == null)
              && (found.None? && SchemaValid(Trim(req.username.value), Trim(req.fullName.value), req.password.value) ==>
                    out.Registered? && created != null)
    ensures out.Registered? ==>
              && created != null && fresh(created)
              && created.id == newId && created.username == Trim(req.username.value)
              && created.fullName == Trim(req.fullName.value) && created.email == Lower(req.email.value)
              && created.phone == req.phone.value
              && created.password == hash(req.password.value, salt) && !created.passwordModified
              && created.address == NewMemberDefaults(req).address
              && created.preferredTeas == NewMemberDefaults(req).preferredTeas
              && created.dietaryPreferences == NewMemberDefaults(req).dietaryPreferences
              && created.membershipPoints == 100 && created.TierConsistent()
              && created.memberSince == now && created.lastLogin == now && created.status == Active
              && out.member == MemberView(newId, created.username, created.fullName, created.email,
                                          created.phone, 100, "bronze", created.preferredTeas, None, None)
              && out.tokens == TokenPair(AccessClaims(newId, created.email, created.username), newId)
  {
    var invalid := ValidateRegister(req, isEmail);
    if invalid.Some? {
      return RegisterFailed(ErrorResponse(400, "Validation error", None, invalid)), null;
    }
    var email, username := req.email.value, req.username.value;
    var existing := FindByEmailOrUsername(db, email, username);
    if existing.Some? {
      var message := ConflictMessage(db[existing.value], email);
      return RegisterFailed(ErrorResponse(409, "Account already exists", Some(message), None)), null;
    }
    var defaults := NewMemberDefaults(req);
    created := new User(newId, username, req.fullName.value, email, req.password.value, req.phone.value,
                        defaults.address, defaults.preferredTeas, defaults.dietaryPreferences,
                        defaults.membershipPoints, now);
    if !SchemaValid(created.username, created.fullName, created.password) {
      return RegisterFailed(RegistrationFailed), null;
    }
    created.Save(salt, hash);
    out := Registered(
      MemberView(created.id, created.username, created.fullName, created.email, created.phone,
                 created.membershipPoints, TierName(created.membershipTier), created.preferredTeas, None, None),
      TokenPair(AccessClaims(created.id, created.email, created.username), created.id));
  }

  // ------------------------------------------------------------------- login

  datatype LoginRequest = LoginRequest(email: Option<string>, password: Option<string>, unknownKeys: seq<string>)

  /** `loginSchema.validate`: the key reported first, if any. */
  function ValidateLogin(req: LoginRequest, isEmail: string -> bool): (r: Option<string>)
    ensures req.email.None? || req.email.value == "" || !isEmail(req.email.value) ==> r == Some("email")
    ensures (req.email.Some? && req.email.value != "" && isEmail(req.email.value)
             && (req.password.None? || req.password.value == "")) ==> r == Some("password")
    ensures r.None? <==> req.email.Some? && req.email.value != "" && isEmail(req.email.value)
                         && req.password.Some? && req.password.value != "" && req.unknownKeys == []
  {
    if req.email.None? || req.email.value == "" || !isEmail(req.email.value) then Some("email")
    else if req.password.None? || req.password.value == "" then Some("password")
    else if |req.unknownKeys| > 0 then Some(req.unknownKeys[0])
    else None
  }

  /** The one body for an unknown e-mail and for a wrong password alike. */
  const AuthFailure := ErrorResponse(401, "Authentication failed", Some("Invalid email or password"), None)

  /** `findOne({email: email.toLowerCase(), status: 'active'})`: the first active member with that e-mail. */
  function FindActiveByEmail(db: seq<User>, email: string): (r: Option<nat>)
    ensures r.Some? ==> r.value < |db| && db[r.value].email == Lower(email) && db[r.value].status == Active
    ensures r.Some? ==> forall j :: 0 <= j < r.value ==> !(db[j].email == Lower(email) && db[j].status == Active)
    ensures r.None? ==> forall j :: 0 <= j < |db| ==> !(db[j].email == Lower(email) && db[j].status == Active)
  {
    FirstIndex(db, (u: User) => u.email == Lower(email) && u.status == Active)
  }

  datatype LoginDecision = Reject(err: ErrorResponse) | Accept(index: nat)

  /**
   * Who logs in: the active member with the e-mail whose stored hash matches
   * the password. An unknown e-mail and a wrong password give the same reply.
   */
  function Authenticate(db: seq<User>, req: LoginRequest, isEmail: string -> bool,
                        compare: (string, string) -> bool): (d: LoginDecision)
    reads db
    ensures ValidateLogin(req, isEmail).Some? ==>
              d == Reject(ErrorResponse(400, "Invalid credentials", None, ValidateLogin(req, isEmail)))
    ensures d.Accept? ==> d.index < |db| && db[d.index].email == Lower(req.email.value)
                          && db[d.index].status == Active && compare(req.password.value, db[d.index].password)
    ensures ValidateLogin(req, isEmail).None? ==>
              (d == Reject(AuthFailure) <==>
                 || FindActiveByEmail(db, req.email.value).None?
                 || !compare(req.password.value, db[FindActiveByEmail(db, req.email.value).value].password))
    ensures d.Reject? ==> d.err.status == 400 || d.err == AuthFailure
    ensures d.Reject? && d.err.status == 400 ==> ValidateLogin(req, isEmail).Some?
    ensures ValidateLogin(req, isEmail).None? && FindActiveByEmail(db, req.email.value).Some?
            && compare(req.password.value, db[FindActiveByEmail(db, req.email.value).value].password) ==>
              d == Accept(FindActiveByEmail(db, req.email.value).value)
  {
    var invalid := ValidateLogin(req, isEmail);
    if invalid.Some? then Reject(ErrorResponse(400, "Invalid credentials", None, invalid))
    else
      match FindActiveByEmail(db, req.email.value)
      case None => Reject(AuthFailure)
      case Some(i) => if compare(req.password.value, db[i].password) then Accept(i) else Reject(AuthFailure)
  }

  /** The two failure paths of a valid login cannot be told apart by their reply. */
  lemma UnknownUserAndWrongPasswordIndistinguishable(db: seq<User>, req: LoginRequest, isEmail: string -> bool,
                                                     compare: (string, string) -> bool, i: nat)
    requires ValidateLogin(req, isEmail).None?
    requires FindActiveByEmail(db, req.email.value) == Some(i)
    requires !compare(req.password.value, db[i].password)
    ensures Authenticate(db, req, isEmail, compare) == Authenticate([], req, isEmail, compare)
  {
  }

  datatype LoginOutcome = LoginFailed(err: ErrorResponse) | LoggedIn(member: MemberView, tokens: TokenPair)

  /**
   * The login handler: authenticate, stamp `lastLogin`, save (the password is
   * not modified, so it is not hashed again) and return the summary with the
   * discount of the member's tier and both tokens.
   */
  method Login(db: seq<User>, req: LoginRequest, isEmail: string -> bool, compare: (string, string) -> bool,
               now: int, salt: string, hash: (string, string) -> string)
    returns (out: LoginOutcome)
    requires forall k :: 0 <= k < |db| ==> !db[k].passwordModified
    modifies db
    ensures old(Authenticate(db, req, isEmail, compare)).Reject? ==>
              out == LoginFailed(old(Authenticate(db, req, isEmail, compare)).err)
              && forall k :: 0 <= k < |db| ==> db[k].lastLogin == old(db[k].lastLogin)
    ensures old(Authenticate(db, req, isEmail, compare)).Accept? ==>
              var u := db[old(Authenticate(db, req, isEmail, compare)).index];
              && u.lastLogin == now
              && out == LoggedIn(MemberView(u.id, u.username, u.fullName, u.email, u.phone, u.membershipPoints,
                                            TierName(u.membershipTier), u.preferredTeas,
                                            Some(u.dietaryPreferences), Some(u.GetDiscount())),
                                 TokenPair(AccessClaims(u.id, u.email, u.username), u.id))
              && forall k :: 0 <= k < |db| && db[k] != u ==> db[k].lastLogin == old(db[k].lastLogin)
    ensures forall k :: 0 <= k < |db| ==> db[k].password == old(db[k].password) && !db[k].passwordModified
    ensures forall k :: 0 <= k < |db| ==>
              db[k].membershipPoints == old(db[k].membershipPoints) && db[k].membershipTier == old(db[k].membershipTier)
  {
    var decision := Authenticate(db, req, isEmail, compare);
    if decision.Reject? {
      return LoginFailed(decision.err);
    }
    var user := db[decision.index];
    user.lastLogin := now;
    user.Save(salt, hash);
    out := LoggedIn(MemberView(user.id, user.username, user.fullName, user.email, user.phone,
                               user.membershipPoints, TierName(user.membershipTier), user.preferredTeas,
                               Some(user.dietaryPreferences), Some(user.GetDiscount())),
                    TokenPair(AccessClaims(user.id, user.email, user.username), user.id));
  }

  // ----------------------------------------------------------------- profile

  /** `findById`: the first stored member with the id. */
  function FindById(db: seq<User>, id: Id): (r: Option<nat>)
    ensures r.Some? ==> r.value < |db| && db[r.value].id == id
    ensures r.Some? ==> forall j :: 0 <= j < r.value ==> db[j].id != id
    ensures r.None? ==> forall j :: 0 <= j < |db| ==> db[j].id != id
  {
    FirstIndex(db, (u: User) => u.id == id)
  }

  datatype Statistics = Statistics(totalOrders: nat, currentPoints: int, membershipTier: string, nextTierPoints: int)

  datatype ProfileOutcome = ProfileFailed(err: ErrorResponse) | ProfileOk(member: map<string, Value>, statistics: Statistics)

  /** The profile handler for the authenticated user id, if any. */
  function Profile(userId: Option<Id>, db: seq<User>): (r: ProfileOutcome)
    reads db
    ensures userId.None? || userId.value == "" ==>
              r == ProfileFailed(ErrorResponse(401, "Authentication required", None, None))
    ensures userId.Some? && userId.value != "" && FindById(db, userId.value).None? ==>
              r == ProfileFailed(ErrorResponse(404, "User not found", None, None))
    ensures r.ProfileOk? ==> "password" !in r.member
    ensures userId.Some? && userId.value != "" && FindById(db, userId.value).Some? ==>
              var u := db[FindById(db, userId.value).value];
              && r.ProfileOk? && r.member == u.ToJSON()
              && r.statistics.nextTierPoints == NextTierPoints(u.membershipTier, u.membershipPoints)
    ensures r.ProfileOk? ==>
              var u := db[FindById(db, userId.value).value];
              && r.statistics.totalOrders == |u.orders| && r.statistics.currentPoints == u.membershipPoints
              && r.statistics.membershipTier == TierName(u.membershipTier)
              && (u.membershipTier == Platinum ==> r.statistics.nextTierPoints == 0)
              && (u.TierConsistent() && u.membershipTier != Platinum ==> r.statistics.nextTierPoints > 0)
  {
    if userId.None? || userId.value == "" then ProfileFailed(ErrorResponse(401, "Authentication required", None, None))
    else
      match FindById(db, userId.value)
      case None => ProfileFailed(ErrorResponse(404, "User not found", None, None))
      case Some(i) =>
        var u := db[i];
        ProfileOk(u.ToJSON(),
                  Statistics(|u.orders|, u.membershipPoints, TierName(u.membershipTier),
                             NextTierPoints(u.membershipTier, u.membershipPoints)))
  }

  // ----------------------------------------------------------------- refresh

  const RefreshRequired := ErrorResponse(401, "Refresh token required", None, None)
  const RefreshInvalid := ErrorResponse(401, "Invalid refresh token", None, None)

  datatype RefreshOutcome = RefreshFailed(err: ErrorResponse) | Refreshed(accessToken: AccessClaims)

  /**
   * The refresh handler: a missing token, a token that fails verification and
   * a token naming an absent or inactive member are refused with 401;
   * otherwise a new access token alone is issued.
   */
  function Refresh(token: Option<string>, verify: string -> Option<Id>, db: seq<User>): (r: RefreshOutcome)
    ensures token.None? || token.value == "" ==> r == RefreshFailed(RefreshRequired)
    ensures r.RefreshFailed? ==> r.err.status == 401
    ensures r.Refreshed? <==>
              && token.Some? && token.value != "" && verify(token.value).Some?
              && FindById(db, verify(token.value).value).Some?
              && db[FindById(db, verify(token.value).value).value].status == Active
    ensures r.Refreshed? ==>
              var u := db[FindById(db, verify(token.value).value).value];
              r.accessToken == AccessClaims(u.id, u.email, u.username) && u.id == verify(token.value).value
    ensures token.Some? && token.value != "" && !r.Refreshed? ==> r == RefreshFailed(RefreshInvalid)
  {
    if token.None? || token.value == "" then RefreshFailed(RefreshRequired)
    else
      match verify(token.value)
      case None => RefreshFailed(RefreshInvalid)
      case Some(id) =>
        match FindById(db, id)
        case None => RefreshFailed(RefreshInvalid)
        case Some(i) =>
          if db[i].status != Active then RefreshFailed(RefreshInvalid)
          else Refreshed(AccessClaims(db[i].id, db[i].email, db[i].username))
  }
}

=== FILE: beverage.dfy ===
/**
 * The beverage model: the price calculator (base price by size plus milk
 * surcharges), the rating aggregate recomputed from the review set, and the
 * low-stock and seasonal-window virtuals. Money is in integer minor units;
 * the average rating is kept in tenths of a star.
 */
module Beverages {
  import opened Wrappers
  import opened Sequences
  import Users

  type Id = Users.Id

  datatype SizePrice = SizePrice(price: int, size: string)

  /** The three required size entries of `pricing`. */
  datatype Pricing = Pricing(small: SizePrice, medium: SizePrice, large: SizePrice)

  /** One entry of a customization option group: a name and an additive price. */
  datatype PriceOption = PriceOption(name: Option<string>, additionalPrice: int)

  /** A customization the customer asks for: its `type` and its `name`. */
  datatype Customization = Customization(kind: Option<string>, name: Option<string>)

  /** `pricing[size]`: the entry for one of the three size keys, absent otherwise. */
  function SizeEntry(p: Pricing, size: string): (e: Option<SizePrice>)
    ensures e.Some? <==> size in {"small", "medium", "large"}
  {
    if size == "small" then Some(p.small)
    else if size == "medium" then Some(p.medium)
    else if size == "large" then Some(p.large)
    else None
  }

  /**
   * `pricing[size]?.price || pricing.medium.price`: the size's price when the
   * size is known and its price is non-zero, the medium price otherwise.
   */
  function BasePrice(p: Pricing, size: string): (r: int)
    ensures SizeEntry(p, size).Some? && SizeEntry(p, size).value.price != 0 ==> r == SizeEntry(p, size).value.price
    ensures SizeEntry(p, size).None? || SizeEntry(p, size).value.price == 0 ==> r == p.medium.price
    ensures r == p.small.price || r == p.medium.price || r == p.large.price
    ensures r == 0 ==> p.medium.price == 0
  {
    var e := SizeEntry(p, size);
    if e.Some? && e.value.price != 0 then e.value.price else p.medium.price
  }

  /** `find` over an option group: the index of the first option with this name. */
  function FindOption(opts: seq<PriceOption>, name: Option<string>): (r: Option<nat>)
    ensures r.Some? ==> r.value < |opts| && opts[r.value].name == name
    ensures r.Some? ==> forall j :: 0 <= j < r.value ==> opts[j].name != name
    ensures r.None? ==> forall j :: 0 <= j < |opts| ==> opts[j].name != name
  {
    FirstIndex(opts, (o: PriceOption) => o.name == name)
  }

  /**
   * What one customization adds: the first same-named milk option's price for
   * a milk customization, nothing for an unmatched name or any other type.
   */
  function Surcharge(milk: seq<PriceOption>, c: Customization): (s: int)
    ensures c.kind != Some("milk") ==> s == 0
    ensures c.kind == Some("milk") && FindOption(milk, c.name).None? ==> s == 0
    ensures c.kind == Some("milk") && FindOption(milk, c.name).Some? ==>
              s == milk[FindOption(milk, c.name).value].additionalPrice
  {
    if c.kind == Some("milk") then
      match FindOption(milk, c.name)
      case Some(i) => milk[i].additionalPrice
      case None => 0
    else 0
  }

  /** The sum of the surcharges of a list of customizations, in list order. */
  function SurchargeTotal(milk: seq<PriceOption>, cs: seq<Customization>): int
  {
    if |cs| == 0 then 0
    else SurchargeTotal(milk, cs[..|cs| - 1]) + Surcharge(milk, cs[|cs| - 1])
  }

  /** Taking one customization out of the list takes out exactly its surcharge. */
  lemma {:induction false} SurchargeTotalRemove(milk: seq<PriceOption>, cs: seq<Customization>, i: nat)
    requires i < |cs|
    ensures SurchargeTotal(milk, cs) == Surcharge(milk, cs[i]) + SurchargeTotal(milk, cs[..i] + cs[i + 1..])
  {
    var n := |cs|;
    if i == n - 1 {
      assert cs[..i] + cs[i + 1..] == cs[..n - 1];
    } else {
      var front := cs[..n - 1];
      SurchargeTotalRemove(milk, front, i);
      var rest := cs[..i] + cs[i + 1..];
      assert rest[..|rest| - 1] == front[..i] + front[i + 1..];
      assert rest[|rest| - 1] == cs[n - 1];
    }
  }

  /** The order of the customizations does not affect the total. */
  lemma {:induction false} SurchargeTotalPermutation(milk: seq<PriceOption>, cs: seq<Customization>, ds: seq<Customization>)
    requires multiset(cs) == multiset(ds)
    ensures SurchargeTotal(milk, cs) == SurchargeTotal(milk, ds)
  {
    if |cs| == 0 {
      assert |multiset(ds)| == 0;
    } else {
      var n := |cs|;
      var c := cs[n - 1];
      assert cs == cs[..n - 1] + [c];
      assert c in multiset(ds);
      var i :| 0 <= i < |ds| && ds[i] == c;
      SurchargeTotalRemove(milk, ds, i);
      var rest := ds[..i] + ds[i + 1..];
      assert ds == ds[..i] + [ds[i]] + ds[i + 1..];
      assert multiset(rest) == multiset(ds) - multiset{c};
      assert multiset(cs[..n - 1]) == multiset(cs) - multiset{c};
      SurchargeTotalPermutation(milk, cs[..n - 1], rest);
    }
  }

  /** A customization that is not of the milk type can be dropped without changing the total. */
  lemma NonMilkIgnored(milk: seq<PriceOption>, cs: seq<Customization>, i: nat)
    requires i < |cs| && cs[i].kind != Some("milk")
    ensures SurchargeTotal(milk, cs) == SurchargeTotal(milk, cs[..i] + cs[i + 1..])
  {
    SurchargeTotalRemove(milk, cs, i);
  }

  /** With no milk customization at all, nothing is added. */
  lemma {:induction false} NoMilkNoSurcharge(milk: seq<PriceOption>, cs: seq<Customization>)
    requires forall k :: 0 <= k < |cs| ==> cs[k].kind != Some("milk")
    ensures SurchargeTotal(milk, cs) == 0
  {
    if |cs| > 0 {
      NoMilkNoSurcharge(milk, cs[..|cs| - 1]);
    }
  }

  /** With non-negative option prices, the total surcharge is non-negative. */
  lemma {:induction false} SurchargeTotalNonNegative(milk: seq<PriceOption>, cs: seq<Customization>)
    requires forall k :: 0 <= k < |milk| ==> milk[k].additionalPrice >= 0
    ensures SurchargeTotal(milk, cs) >= 0
  {
    if |cs| > 0 {
      SurchargeTotalNonNegative(milk, cs[..|cs| - 1]);
    }
  }

  /** A review: the beverage it is about, its author and its star rating. */
  datatype Review = Review(beverage: Id, user: string, rating: int)

  /** The ratings of the reviews about one beverage, in review order (the `$match` stage). */
  function RatingsFor(reviews: seq<Review>, id: Id): (rs: seq<int>)
    ensures |rs| == |MatchingReviews(reviews, id)|
    ensures forall k :: 0 <= k < |rs| ==>
              exists j :: 0 <= j < |reviews| && reviews[j].beverage == id && reviews[j].rating == rs[k]
    ensures (forall k :: 0 <= k < |reviews| ==> 1 <= reviews[k].rating <= 5) ==>
              forall k :: 0 <= k < |rs| ==> 1 <= rs[k] <= 5
  {
    if |reviews| == 0 then []
    else
      var n := |reviews| - 1;
      var last := reviews[n];
      assert MatchingReviews(reviews, id) ==
             MatchingReviews(reviews[..n], id) + (if last.beverage == id then {n} else {});
      RatingsFor(reviews[..n], id) + (if last.beverage == id then [last.rating] else [])
  }

  /**
   * The ratings returned are exactly those of the beverage's reviews: every
   * value occurs as often as the beverage's reviews carry it.
   */
  lemma {:induction false} RatingsForExact(reviews: seq<Review>, id: Id)
    ensures forall v {:trigger RatedReviews(reviews, id, v)} ::
              multiset(RatingsFor(reviews, id))[v] == |RatedReviews(reviews, id, v)|
  {
    if |reviews| == 0 {
      forall v ensures multiset(RatingsFor(reviews, id))[v] == |RatedReviews(reviews, id, v)| {
        assert RatedReviews(reviews, id, v) == {};
      }
    } else {
      var n := |reviews| - 1;
      var last := reviews[n];
      RatingsForExact(reviews[..n], id);
      RatedReviewsLast(reviews, id);
      var earlier := RatingsFor(reviews[..n], id);
      var added := if last.beverage == id then [last.rating] else [];
      assert RatingsFor(reviews, id) == earlier + added;
      assert multiset(earlier + added) == multiset(earlier) + multiset(added);
      forall v ensures multiset(RatingsFor(reviews, id))[v] == |RatedReviews(reviews, id, v)| {
        assert |RatedReviews(reviews[..n], id, v)| == multiset(earlier)[v];
      }
    }
  }

  /** The positions of the reviews about one beverage that carry the rating `v`. */
  function RatedReviews(reviews: seq<Review>, id: Id, v: int): set<nat>
  {
    set j: nat | j < |reviews| && reviews[j].beverage == id && reviews[j].rating == v
  }

  /** The last review adds itself, and only itself, to the count of its rating. */
  lemma RatedReviewsLast(reviews: seq<Review>, id: Id)
    requires |reviews| > 0
    ensures forall v {:trigger RatedReviews(reviews, id, v)} ::
              |RatedReviews(reviews, id, v)| ==
              |RatedReviews(reviews[..|reviews| - 1], id, v)|
              + (if reviews[|reviews| - 1].beverage == id && reviews[|reviews| - 1].rating == v then 1 else 0)
  {
    var n := |reviews| - 1;
    forall v
      ensures |RatedReviews(reviews, id, v)| ==
              |RatedReviews(reviews[..n], id, v)| + (if reviews[n].beverage == id && reviews[n].rating == v then 1 else 0)
    {
      var before := RatedReviews(reviews[..n], id, v);
      assert n !in before;
      if reviews[n].beverage == id && reviews[n].rating == v {
        assert RatedReviews(reviews, id, v) == before + {n};
      } else {
        assert RatedReviews(reviews, id, v) == before;
      }
    }
  }

  /** The positions of the reviews about one beverage. */
  function MatchingReviews(reviews: seq<Review>, id: Id): set<nat>
  {
    set j: nat | j < |reviews| && reviews[j].beverage == id
  }

  function Sum(rs: seq<int>): int
  {
    if |rs| == 0 then 0 else Sum(rs[..|rs| - 1]) + rs[|rs| - 1]
  }

  /** Ratings of one to five stars sum to between one and five times their count. */
  lemma {:induction false} SumBounds(rs: seq<int>)
    requires forall k :: 0 <= k < |rs| ==> 1 <= rs[k] <= 5
    ensures |rs| <= Sum(rs) <= 5 * |rs|
  {
    if |rs| > 0 {
      SumBounds(rs[..|rs| - 1]);
    }
  }

  /**
   * `Math.round(10 * sum / count)`: the whole number of tenths nearest to the
   * mean, halves rounded up.
   */
  function RoundTenths(sum: int, count: nat): (q: int)
    requires count > 0
    ensures 2 * count * q <= 20 * sum + count < 2 * count * (q + 1)
  {
    (20 * sum + count) / (2 * count)
  }

  /** The rounded mean of ratings of one to five stars lies between 1.0 and 5.0. */
  lemma AverageInRange(rs: seq<int>)
    requires |rs| > 0
    requires forall k :: 0 <= k < |rs| ==> 1 <= rs[k] <= 5
    ensures 10 <= RoundTenths(Sum(rs), |rs|) <= 50
  {
    SumBounds(rs);
    var c, s := |rs|, Sum(rs);
    var q := RoundTenths(s, c);
    if q < 10 {
      MulMonotone(2 * c, q + 1, 10);
      assert false;
    }
    if q > 50 {
      MulMonotone(2 * c, 51, q);
      assert false;
    }
  }

  lemma MulMonotone(k: nat, a: int, b: int)
    requires a <= b
    ensures k * a <= k * b
  {
    assert k * b - k * a == k * (b - a);
  }

  /** Reviews rated 5, 4 and 3 give an average of 4.0 over three reviews. */
  lemma AverageExample()
    ensures RoundTenths(Sum([5, 4, 3]), 3) == 40
    ensures RoundTenths(Sum([5]), 1) == 50
    ensures RoundTenths(Sum([4, 5]), 2) == 45
  {
    assert [5, 4, 3][..2] == [5, 4];
    assert [5, 4][..1] == [5] && [4, 5][..1] == [4];
    assert [5][..0] == [] && [4][..0] == [];
  }

  /** A beverage document; only the rating aggregate is written in place. */
  class Beverage {
    const id: Id
    const pricing: Pricing
    const milkOptions: seq<PriceOption>
    const sweetenerOptions: seq<PriceOption>
    const extraOptions: seq<PriceOption>
    const stockQuantity: int
    const lowStockThreshold: int
    const isSeasonalSpecial: bool
    const seasonalStartDate: Option<int>
    const seasonalEndDate: Option<int>
    /** `averageRating`, in tenths of a star. */
    var averageRatingTenths: int
    var totalReviews: nat

    /** A new beverage: the aggregate starts at zero reviews and a zero average. */
    constructor (id: Id, pricing: Pricing, milkOptions: seq<PriceOption>,
                 sweetenerOptions: seq<PriceOption>, extraOptions: seq<PriceOption>,
                 stockQuantity: int, lowStockThreshold: int, isSeasonalSpecial: bool,
                 seasonalStartDate: Option<int>, seasonalEndDate: Option<int>)
      ensures this.id == id && this.pricing == pricing && this.milkOptions == milkOptions
      ensures this.sweetenerOptions == sweetenerOptions && this.extraOptions == extraOptions
      ensures this.stockQuantity == stockQuantity && this.lowStockThreshold == lowStockThreshold
      ensures this.isSeasonalSpecial == isSeasonalSpecial
      ensures this.seasonalStartDate == seasonalStartDate && this.seasonalEndDate == seasonalEndDate
      ensures averageRatingTenths == 0 && totalReviews == 0
    {
      this.id := id;
      this.pricing := pricing;
      this.milkOptions := milkOptions;
      this.sweetenerOptions := sweetenerOptions;
      this.extraOptions := extraOptions;
      this.stockQuantity := stockQuantity;
      this.lowStockThreshold := lowStockThreshold;
      this.isSeasonalSpecial := isSeasonalSpecial;
      this.seasonalStartDate := seasonalStartDate;
      this.seasonalEndDate := seasonalEndDate;
      averageRatingTenths := 0;
      totalReviews := 0;
    }

    /** The `isLowStock` virtual. */
    function IsLowStock(): (b: bool)
      ensures b <==> stockQuantity <= lowStockThreshold
    {
      stockQuantity <= lowStockThreshold
    }

    /**
     * The `isCurrentlySeasonalActive` virtual at time `now`: a seasonal
     * special inside its window, both ends inclusive and each optional.
     */
    function IsCurrentlySeasonalActive(now: int): (b: bool)
      ensures !isSeasonalSpecial ==> !b
      ensures b ==> (seasonalStartDate.None? || seasonalStartDate.value <= now)
      ensures b ==> (seasonalEndDate.None? || now <= seasonalEndDate.value)
      ensures (isSeasonalSpecial && (seasonalStartDate.None? || seasonalStartDate.value <= now)
               && (seasonalEndDate.None? || now <= seasonalEndDate.value)) ==> b
    {
      if !isSeasonalSpecial then false
      else
        && (seasonalStartDate.None? || now >= seasonalStartDate.value)
        && (seasonalEndDate.None? || now <= seasonalEndDate.value)
    }

    /**
     * `calculatePrice`: the base price for the size, then, customization by
     * customization, the price of the matching milk option.
     */
    method CalculatePrice(size: string, customizations: seq<Customization>) returns (price: int)
      ensures price == BasePrice(pricing, size) + SurchargeTotal(milkOptions, customizations)
      ensures (forall k :: 0 <= k < |milkOptions| ==> milkOptions[k].additionalPrice >= 0) ==>
                price >= BasePrice(pricing, size)
    {
      var sizePrice := SizeEntry(pricing, size);
      price := if sizePrice.Some? && sizePrice.value.price != 0 then sizePrice.value.price else pricing.medium.price;
      var i := 0;
      while i < |customizations|
        invariant 0 <= i <= |customizations|
        invariant price == BasePrice(pricing, size) + SurchargeTotal(milkOptions, customizations[..i])
      {
        var custom := customizations[i];
        if custom.kind == Some("milk") {
          var found := FindOption(milkOptions, custom.name);
          if found.Some? {
            price := price + milkOptions[found.value].additionalPrice;
          }
        }
        assert customizations[..i + 1][..i] == customizations[..i];
        i := i + 1;
      }
      assert customizations[..i] == customizations;
      if forall k :: 0 <= k < |milkOptions| ==> milkOptions[k].additionalPrice >= 0 {
        SurchargeTotalNonNegative(milkOptions, customizations);
      }
    }

    /**
     * `updateAverageRating`: recompute the count and the rounded mean of the
     * ratings of this beverage's reviews; zero and zero when there are none.
     */
    method UpdateAverageRating(reviews: seq<Review>)
      modifies this`averageRatingTenths, this`totalReviews
      ensures totalReviews == |RatingsFor(reviews, id)| == |MatchingReviews(reviews, id)|
      ensures totalReviews == 0 ==> averageRatingTenths == 0
      ensures totalReviews > 0 ==> averageRatingTenths == RoundTenths(Sum(RatingsFor(reviews, id)), totalReviews)
      ensures (forall k :: 0 <= k < |reviews| ==> 1 <= reviews[k].rating <= 5) && totalReviews > 0 ==>
                10 <= averageRatingTenths <= 50
    {
      var ratings := RatingsFor(reviews, id);
      if |ratings| > 0 {
        averageRatingTenths := RoundTenths(Sum(ratings), |ratings|);
        totalReviews := |ratings|;
        if forall k :: 0 <= k < |reviews| ==> 1 <= reviews[k].rating <= 5 {
          AverageInRange(ratings);
        }
      } else {
        averageRatingTenths := 0;
        totalReviews := 0;
      }
    }
  }

  /** Prices 90/110/130: each size costs its own price, an unknown size falls back to medium. */
  lemma PricingExamples()
    ensures BasePrice(Pricing(SizePrice(90, "8 oz"), SizePrice(110, "12 oz"), SizePrice(130, "16 oz")), "small") == 90
    ensures BasePrice(Pricing(SizePrice(90, "8 oz"), SizePrice(110, "12 oz"), SizePrice(130, "16 oz")), "medium") == 110
    ensures BasePrice(Pricing(SizePrice(90, "8 oz"), SizePrice(110, "12 oz"), SizePrice(130, "16 oz")), "large") == 130
    ensures BasePrice(Pricing(SizePrice(90, "8 oz"), SizePrice(110, "12 oz"), SizePrice(130, "16 oz")), "venti") == 110
    ensures BasePrice(Pricing(SizePrice(0, "8 oz"), SizePrice(110, "12 oz"), SizePrice(130, "16 oz")), "small") == 110
  {
  }
}

=== FILE: membership.dfy ===
/**
 * The membership tier engine of the user model: a tier derived from the
 * accumulated points, the discount table and the "points to next tier"
 * statistic reported on the profile.
 */
module Membership {

  datatype Tier = Bronze | Silver | Gold | Platinum

  const SilverPoints: int := 500
  const GoldPoints: int := 2000
  const PlatinumPoints: int := 5000

  /** The string stored in the `membershipTier` field. */
  function TierName(t: Tier): string
  {
    match t
    case Bronze => "bronze"
    case Silver => "silver"
    case Gold => "gold"
    case Platinum => "platinum"
  }

  /** Position of a tier in the order bronze < silver < gold < platinum. */
  function Rank(t: Tier): nat
  {
    match t
    case Bronze => 0
    case Silver => 1
    case Gold => 2
    case Platinum => 3
  }

  /** The points at which a tier above bronze begins. */
  function Threshold(t: Tier): int
    requires t != Bronze
  {
    match t
    case Silver => SilverPoints
    case Gold => GoldPoints
    case Platinum => PlatinumPoints
  }

  /** The tier one above `t`. */
  function Next(t: Tier): (n: Tier)
    requires t != Platinum
    ensures Rank(n) == Rank(t) + 1
  {
    match t
    case Bronze => Silver
    case Silver => Gold
    case Gold => Platinum
  }

  /**
   * The tier `updateMembershipTier` assigns for a points balance: the highest
   * tier whose threshold the balance reaches.
   */
  function TierFor(points: int): (t: Tier)
    ensures t != Bronze ==> Threshold(t) <= points
    ensures t != Platinum ==> points < Threshold(Next(t))
  {
    if points >= PlatinumPoints then Platinum
    else if points >= GoldPoints then Gold
    else if points >= SilverPoints then Silver
    else Bronze
  }

  /** The four bands of the tier function, each as an if-and-only-if. */
  lemma TierBands(p: int)
    ensures TierFor(p) == Platinum <==> p >= 5000
    ensures TierFor(p) == Gold <==> 2000 <= p < 5000
    ensures TierFor(p) == Silver <==> 500 <= p < 2000
    ensures TierFor(p) == Bronze <==> p < 500
  {
  }

  /** More points never give a lower tier. */
  lemma TierMonotone(p: int, q: int)
    requires p <= q
    ensures Rank(TierFor(p)) <= Rank(TierFor(q))
  {
  }

  /**
   * `getDiscount`: the percentage for a stored tier name; a name outside the
   * table falls back to 0.
   */
  function DiscountFor(name: string): (d: nat)
    ensures d in {0, 5, 10, 15}
    ensures forall t: Tier :: name == TierName(t) ==> d == 5 * Rank(t)
    ensures (forall t: Tier :: name != TierName(t)) ==> d == 0
  {
    if name == "silver" then assert name == TierName(Silver); 5
    else if name == "gold" then assert name == TierName(Gold); 10
    else if name == "platinum" then assert name == TierName(Platinum); 15
    else 0
  }

  /** A higher tier never gets a smaller discount. */
  lemma DiscountMonotone(a: Tier, b: Tier)
    requires Rank(a) <= Rank(b)
    ensures DiscountFor(TierName(a)) <= DiscountFor(TierName(b))
  {
  }

  /** The discount table at the boundary balances. */
  lemma DiscountAtBoundaries()
    ensures DiscountFor(TierName(TierFor(0))) == 0
    ensures DiscountFor(TierName(TierFor(499))) == 0
    ensures DiscountFor(TierName(TierFor(500))) == 5
    ensures DiscountFor(TierName(TierFor(1999))) == 5
    ensures DiscountFor(TierName(TierFor(2000))) == 10
    ensures DiscountFor(TierName(TierFor(4999))) == 10
    ensures DiscountFor(TierName(TierFor(5000))) == 15
    ensures DiscountFor(TierName(TierFor(10000))) == 15
  {
  }

  /** The schema defaults (100 points, bronze) agree with the tier function. */
  lemma DefaultsConsistent()
    ensures TierFor(100) == Bronze
  {
  }

  /**
   * The profile's `nextTierPoints` statistic for a stored tier and balance:
   * 0 for platinum, otherwise the next tier's threshold minus the balance.
   */
  function NextTierPoints(t: Tier, points: int): (n: int)
    ensures t == Platinum ==> n == 0
    ensures t != Platinum ==> points + n == Threshold(Next(t))
  {
    match t
    case Platinum => 0
    case Gold => PlatinumPoints - points
    case Silver => GoldPoints - points
    case Bronze => SilverPoints - points
  }

  /**
   * When the stored tier agrees with the balance, `nextTierPoints` is exactly
   * the number of points that moves the member up one tier: positive, the
   * balance plus it reaches the next tier, and one point less does not.
   */
  lemma NextTierPointsReachesNextTier(p: int)
    requires TierFor(p) != Platinum
    ensures NextTierPoints(TierFor(p), p) > 0
    ensures TierFor(p + NextTierPoints(TierFor(p), p)) == Next(TierFor(p))
    ensures TierFor(p + NextTierPoints(TierFor(p), p) - 1) == TierFor(p)
  {
  }
}

=== FILE: sequences.dfy ===
/** Searching a sequence, as JavaScript's `find` and a store's `findOne` do. */
module Sequences {
  import opened Wrappers

  /** The index of the first element that satisfies `p`, none when no element does. */
  function FirstIndex<T>(s: seq<T>, p: T -> bool): (r: Option<nat>)
    ensures r.Some? ==> r.value < |s| && p(s[r.value])
    ensures r.Some? ==> forall j :: 0 <= j < r.value ==> !p(s[j])
    ensures r.None? ==> forall j :: 0 <= j < |s| ==> !p(s[j])
  {
    if |s| == 0 then None
    else if p(s[0]) then Some(0)
    else
      match FirstIndex(s[1..], p)
      case Some(i) => Some(i + 1)
      case None => None
  }
}

=== FILE: user.dfy ===
/**
 * The user model: the stored member document, its membership-points state
 * machine, the password-hash-on-save rule, the `fullAddress` virtual and the
 * `toJSON` projection.
 */
module Users {
  import opened Wrappers
  import opened Membership

  /** A document identifier. */
  type Id = string

  datatype Status = Active | Inactive | Suspended

  function StatusName(s: Status): string
  {
    match s
    case Active => "active"
    case Inactive => "inactive"
    case Suspended => "suspended"
  }

  /**
   * The postal address sub-document; every part is optional except the
   * country, which the schema defaults to "India".
   */
  datatype Address = Address(street: Option<string>, city: Option<string>,
                             state: Option<string>, zipCode: Option<string>,
                             country: string)

  /** The address stored for a member who supplied none. */
  const EmptyAddress := Address(None, None, None, None, "India")

  /** How a template literal prints an optional string: `undefined` when absent. */
  function Interpolate(o: Option<string>): string
  {
    o.GetOr("undefined")
  }

  /**
   * The `fullAddress` virtual: empty when the street is missing or empty,
   * otherwise "street, city, state zipCode".
   */
  function FullAddress(a: Address): (r: string)
    ensures r == "" <==> a.street.None? || a.street.value == ""
    ensures r != "" ==> |r| > |a.street.value| + 2 + |Interpolate(a.zipCode)|
    ensures r != "" ==> r[..|a.street.value| + 2] == a.street.value + ", "
    ensures r != "" ==> r[|r| - |Interpolate(a.zipCode)|..] == Interpolate(a.zipCode)
    ensures r != "" ==>
              var c := |a.street.value| + 2;
              var st := c + |Interpolate(a.city)| + 2;
              && |r| == st + |Interpolate(a.state)| + 1 + |Interpolate(a.zipCode)|
              && r[c..c + |Interpolate(a.city)|] == Interpolate(a.city)
              && r[c + |Interpolate(a.city)|..st] == ", "
              && r[st..st + |Interpolate(a.state)|] == Interpolate(a.state)
              && r[st + |Interpolate(a.state)|] == ' '
  {
    if a.street.None? || a.street.value == "" then ""
    else a.street.value + ", " + Interpolate(a.city) + ", " + Interpolate(a.state) + " " + Interpolate(a.zipCode)
  }

  /** A worked instance of the address format, and of a missing part. */
  lemma FullAddressExamples()
    ensures FullAddress(Address(Some("1 MG Road"), Some("Pune"), Some("MH"), Some("411001"), "India"))
            == "1 MG Road, Pune, MH 411001"
    ensures FullAddress(Address(Some("1 MG Road"), None, Some("MH"), Some("411001"), "India"))
            == "1 MG Road, undefined, MH 411001"
    ensures FullAddress(Address(Some(""), Some("Pune"), Some("MH"), Some("411001"), "India")) == ""
    ensures FullAddress(EmptyAddress) == ""
  {
  }

  /** The schema's `lowercase: true` on e-mail addresses (ASCII letters). */
  function LowerChar(c: char): (d: char)
  {
    if 'A' <= c <= 'Z' then (c as int + 32) as char else c
  }

  function Lower(s: string): (r: string)
    ensures |r| == |s|
    ensures forall i :: 0 <= i < |s| ==> r[i] == LowerChar(s[i])
    ensures forall i :: 0 <= i < |r| ==> !('A' <= r[i] <= 'Z')
  {
    seq(|s|, i requires 0 <= i < |s| => LowerChar(s[i]))
  }

  /** Lowercasing a stored (already lowercased) address changes nothing. */
  lemma LowerIdempotent(s: string)
    ensures Lower(Lower(s)) == Lower(s)
  {
  }

  /**
   * The characters JavaScript's `trim` removes: the white-space characters
   * (tab, vertical tab, form feed, space, no-break space, byte-order mark and
   * the other space separators) and the line terminators.
   */
  predicate IsSpace(c: char)
  {
    || c == '\t' || c == '\n' || c as int == 0x0B || c as int == 0x0C || c == '\r' || c == ' '
    || c as int == 0xA0 || c as int == 0x1680 || 0x2000 <= c as int <= 0x200A
    || c as int == 0x2028 || c as int == 0x2029 || c as int == 0x202F || c as int == 0x205F
    || c as int == 0x3000 || c as int == 0xFEFF
  }

  /** The length of the run of white space that starts the string. */
  function LeadingSpaces(s: string): (n: nat)
    ensures n <= |s|
    ensures forall k :: 0 <= k < n ==> IsSpace(s[k])
    ensures n < |s| ==> !IsSpace(s[n])
  {
    if |s| == 0 || !IsSpace(s[0]) then 0 else 1 + LeadingSpaces(s[1..])
  }

  /** Where the run of white space that ends the string begins. */
  function TrailingStart(s: string): (m: nat)
    ensures m <= |s|
    ensures forall k :: m <= k < |s| ==> IsSpace(s[k])
    ensures 0 < m ==> !IsSpace(s[m - 1])
  {
    if |s| == 0 || !IsSpace(s[|s| - 1]) then |s| else TrailingStart(s[..|s| - 1])
  }

  /**
   * The schema's `trim: true`: the string without its leading and trailing
   * white space. The result is a contiguous part of the input, only white
   * space is cut off, and the result neither starts nor ends with white space.
   */
  function Trim(s: string): (r: string)
    ensures exists i, j :: 0 <= i <= j <= |s| && r == s[i..j]
              && (forall k :: 0 <= k < i ==> IsSpace(s[k]))
              && (forall k :: j <= k < |s| ==> IsSpace(s[k]))
    ensures |r| > 0 ==> !IsSpace(r[0]) && !IsSpace(r[|r| - 1])
    ensures |r| <= |s|
  {
    var i := LeadingSpaces(s);
    var t := s[i..];
    var j := TrailingStart(t);
    assert t[..j] == s[i..i + j];
    assert forall k :: i + j <= k < |s| ==> s[k] == t[k - i];
    t[..j]
  }

  /** `"  Asha Rao  "` is stored as `"Asha Rao"`; a string of spaces becomes empty. */
  lemma TrimExamples()
    ensures Trim("  Asha Rao  ") == "Asha Rao"
    ensures Trim("Asha Rao") == "Asha Rao"
    ensures Trim(" \t\n ") == ""
  {
    var s := "  Asha Rao  ";
    assert s[1..][1..] == s[2..];
    assert LeadingSpaces(s[2..]) == 0;
    assert LeadingSpaces(s) == 2;
    var t := s[2..];
    assert t[..|t| - 1][..|t| - 2] == t[..|t| - 2];
    assert TrailingStart(t[..|t| - 2]) == |t| - 2;
    assert TrailingStart(t) == |t| - 2;
    assert t[..|t| - 2] == "Asha Rao";
    var w := " \t\n ";
    assert w[1..][1..][1..][1..] == [];
    assert LeadingSpaces(w) == 4;
  }

  /** A JSON value, as `toObject` produces it. */
  datatype Value =
    | Null
    | Bool(b: bool)
    | Num(n: int)
    | Str(s: string)
    | Arr(items: seq<Value>)
    | Obj(fields: map<string, Value>)

  function Strings(s: seq<string>): (v: Value)
    ensures v.Arr? && |v.items| == |s|
    ensures forall i :: 0 <= i < |s| ==> v.items[i] == Str(s[i])
  {
    Arr(seq(|s|, i requires 0 <= i < |s| => Str(s[i])))
  }

  function OptionalField(key: string, o: Option<string>): map<string, Value>
  {
    if o.Some? then map[key := Str(o.value)] else map[]
  }

  function AddressValue(a: Address): Value
  {
    Obj(map["country" := Str(a.country)]
        + OptionalField("street", a.street) + OptionalField("city", a.city)
        + OptionalField("state", a.state) + OptionalField("zipCode", a.zipCode))
  }

  /** A member document. */
  /**
   * The schema's `required`, `minlength` and `maxlength` rules on the stored
   * (trimmed) username, full name and password, which `save` checks before
   * anything is written. An empty string fails `required`.
   */
  predicate SchemaValid(username: string, fullName: string, password: string)
  {
    && 3 <= |username| <= 20
    && 0 < |fullName| <= 50
    && 6 <= |password|
  }

  class User {
    const id: Id
    const username: string
    const fullName: string
    const email: string
    const phone: string
    const address: Address
    const preferredTeas: seq<string>
    const dietaryPreferences: seq<string>
    const orders: seq<Id>
    const status: Status
    const isEmailVerified: bool
    const memberSince: int
    var password: string
    /** Mongoose's `isModified('password')`: set since the last save. */
    var passwordModified: bool
    var membershipPoints: int
    var membershipTier: Tier
    var lastLogin: int

    /** The tier is a function of the points. */
    predicate TierConsistent()
      reads this
    {
      membershipTier == TierFor(membershipPoints)
    }

    /**
     * `new User({...})`: the schema trims the username and the full name, lowercases the e-mail address and fills in
     * the defaults (bronze tier, active, unverified, no orders, `lastLogin` now).
     * A new document counts every path as modified.
     */
    constructor (id: Id, username: string, fullName: string, email: string, password: string,
                 phone: string, address: Address, preferredTeas: seq<string>,
                 dietaryPreferences: seq<string>, membershipPoints: int, now: int)
      ensures this.id == id && this.username == Trim(username) && this.fullName == Trim(fullName)
      ensures this.email == Lower(email) && this.password == password && this.phone == phone
      ensures this.address == address && this.preferredTeas == preferredTeas
      ensures this.dietaryPreferences == dietaryPreferences && this.orders == []
      ensures this.membershipPoints == membershipPoints && this.membershipTier == Bronze
      ensures this.status == Active && !this.isEmailVerified
      ensures this.memberSince == now && this.lastLogin == now
      ensures this.passwordModified
    {
      this.id := id;
      this.username := Trim(username);
      this.fullName := Trim(fullName);
      this.email := Lower(email);
      this.password := password;
      this.phone := phone;
      this.address := address;
      this.preferredTeas := preferredTeas;
      this.dietaryPreferences := dietaryPreferences;
      this.orders := [];
      this.status := Active;
      this.isEmailVerified := false;
      this.memberSince := now;
      this.membershipPoints := membershipPoints;
      this.membershipTier := Bronze;
      this.lastLogin := now;
      this.passwordModified := true;
    }

    /** `updateMembershipTier`: re-derive the tier from the points. */
    method UpdateMembershipTier()
      modifies this`membershipTier
      ensures membershipTier == TierFor(membershipPoints)
      ensures TierConsistent()
    {
      if membershipPoints >= 5000 {
        membershipTier := Platinum;
      } else if membershipPoints >= 2000 {
        membershipTier := Gold;
      } else if membershipPoints >= 500 {
        membershipTier := Silver;
      } else {
        membershipTier := Bronze;
      }
    }

    /**
     * `addPoints`: add any integer, negative ones included, then re-derive
     * the tier. Nothing but the points and the tier changes.
     */
    method AddPoints(points: int)
      modifies this`membershipPoints, this`membershipTier
      ensures membershipPoints == old(membershipPoints) + points
      ensures membershipTier == TierFor(old(membershipPoints) + points)
      ensures TierConsistent()
      ensures points >= 0 ==> Rank(membershipTier) >= Rank(TierFor(old(membershipPoints)))
    {
      membershipPoints := membershipPoints + points;
      UpdateMembershipTier();
      if points >= 0 {
        TierMonotone(old(membershipPoints), membershipPoints);
      }
    }

    /** `getDiscount`: five percent per tier above bronze. */
    function GetDiscount(): (d: nat)
      reads this
      ensures d == 5 * Rank(membershipTier)
      ensures d <= 15
    {
      DiscountFor(TierName(membershipTier))
    }

    /**
     * The pre-save hook followed by the save: the password is replaced by its
     * salted hash only when it was modified since the last save; afterwards
     * nothing counts as modified, so a second save leaves it alone.
     */
    method Save(salt: string, hash: (string, string) -> string)
      modifies this`password, this`passwordModified
      ensures old(passwordModified) ==> password == hash(old(password), salt)
      ensures !old(passwordModified) ==> password == old(password)
      ensures !passwordModified
    {
      if passwordModified {
        password := hash(password, salt);
      }
      passwordModified := false;
    }

    /** `toObject`: the stored document as JSON, password included. */
    function ToObject(): (m: map<string, Value>)
      reads this
      ensures "password" in m && m["password"] == Str(password)
    {
      map[
        "_id" := Str(id),
        "username" := Str(username),
        "fullName" := Str(fullName),
        "email" := Str(email),
        "password" := Str(password),
        "phone" := Str(phone),
        "address" := AddressValue(address),
        "membershipTier" := Str(TierName(membershipTier)),
        "membershipPoints" := Num(membershipPoints),
        "preferredTeas" := Strings(preferredTeas),
        "dietaryPreferences" := Strings(dietaryPreferences),
        "orders" := Strings(orders),
        "status" := Str(StatusName(status)),
        "isEmailVerified" := Bool(isEmailVerified),
        "memberSince" := Num(memberSince),
        "lastLogin" := Num(lastLogin)
      ]
    }

    /** `toJSON`: the stored document without its password, all else unchanged. */
    function ToJSON(): (r: map<string, Value>)
      reads this
      ensures "password" !in r
      ensures forall k :: k in r ==> k in ToObject() && r[k] == ToObject()[k]
      ensures forall k :: k in ToObject() && k != "password" ==> k in r
    {
      ToObject() - {"password"}
    }
  }
}

=== FILE: wrappers.dfy ===
/** Optional values: a JavaScript field that may be `undefined`. */
module Wrappers {

  datatype Option<+T> = None | Some(value: T) {

    /** The value, or `default` when absent (JavaScript's `x || default` on a present, truthy x). */
    function GetOr(default: T): (r: T)
      ensures Some? ==> r == value
      ensures None? ==> r == default
    {
      match this
      case Some(v) => v
      case None => default
    }
  }
}
